=== FILE: README.md ===
# Crypto payment confirmation — a verified model

This project models the payment core of a small storefront that takes cryptocurrency.
The server gives each (user, currency) pair one deposit address. It keeps a table of
payment rows and reconciles the address's on-chain balance, converted to USD, against the
row's USD target. When the target is met it issues a confirmation code, at most once.
The browser page tracks the payment over a WebSocket, shows progress, and renders a
payment URI as a QR code.

The model is functional. The SQLite table is a `map<(userId, crypto), Invoice>`, so it holds
at most one row per key, as the `UNIQUE (userId, crypto)` constraint demands. The quote table
is a `map<string, Quote>`. Every request handler is a pure function from inputs and state
to a reply and a new state. The page is a `ClientState` record with one step function per event.

Everything the code gets from outside becomes an input:

- the generated wallet (address, secret);
- a balance endpoint's answer, `Reported(smallest units)` or `Unavailable`;
- each price source's answer and the clock;
- the fresh random token;
- `encodeURIComponent` and number formatting, passed as a `UriCodec` of two functions.

Modules: `Wrappers` (Option/Result), `Seqs` and `Text` (search, truthiness, ASCII upper-casing),
`Units` (chains, smallest units, balance lookups), `Prices` (quotes, `convertToUSD`, price fetch and
refresh), `Payments` (rows, payment-details, the check, completion), `Frames` (server replies),
`Server` (endpoints and request histories), `PaymentUri` (QR payload and its parser), `Client`
(the payment page).

Three behaviours of the code are easy to miss; the model follows the code in each:

- **A check recomputes completion every time.** It does not read the stored `completed` flag. So a
  completed Bitcoin invoice whose balance lookup fails is reported unpaid, and its `amountPaid`
  is overwritten with 0 (`Payments.CompletedInvoiceCanReportUnpaid`). The stored flag and code do
  stay fixed (`Server.CodeNeverChanges`).
- **BNB also falls back to the secondary price source** after a primary failure, not only USDT. The
  fallback test is "USDT, or not one of BTC/ETH/LTC". Unmapped ids return null before any
  request is made, so they never reach the fallback.
- **`payment-details` never validates `total`.** A missing total violates the table's NOT NULL
  constraint on both insert and update, and the request fails without writing anything.

## Model

| member | source | states |
|---|---|---|
| Units.ChainOf | backend/server.js:559-574 | a name reaches the chain whose name it upper-cases to, and none when it upper-cases to none of the five |
| Units.DispatchNameRoundTrip | backend/server.js:626-640 | each chain's own upper-case name dispatches back to that chain |
| Units.ChainOfIgnoresCase | backend/server.js:559-574 | currency dispatch depends only on the upper-cased name |
| Units.SupportedNamesDispatch | backend/server.js:626-640 | each of the five validated names reaches its own chain |
| Units.Normalize | backend/server.js:259-260 | a smallest-unit balance divided by the chain's divisor: result × divisor = units, never negative |
| Units.FetchBalance | backend/server.js:443-476 | failed lookups: BTC/ETH/LTC answer 0, BNB/USDT fail; reported balances are normalised |
| Units.FailureLooksLikeEmpty | backend/server.js:450-453 | for BTC/ETH/LTC a failed lookup equals a lookup of an empty address |
| Units.UsdtLookup | backend/server.js:180-195 | USDT balance is units / 1e6; a failure propagates |
| Units.BnbLookup | backend/server.js:248-269 | BNB balance is wei / 1e18; a failure propagates |
| Prices.InitialTable | backend/server.js:100-106 | the five tracked symbols start with no quote |
| Prices.SymbolOf | backend/server.js:479-493 | only Bitcoin, Ethereum and Litecoin are renamed, each to its chain's ticker; every validated name lands on a tracked ticker |
| Prices.PricingIsCaseSensitive | backend/server.js:479-496 | a lower-case coin name reaches its chain for the balance but is priced under an untracked symbol, so it converts to 0 in every table the refresh cycle builds from the initial one; the request validators (not modelled) reject such names, and on the socket path they match no row |
| Prices.PriceOf | backend/server.js:494-496 | a price is usable iff it is present and non-zero |
| Prices.ConvertToUsd | backend/server.js:478-498 | names map to BTC/ETH/LTC (others looked up as given); 0 with no usable price, else balance × price |
| Prices.ConvertIsUnitPriceTimesBalance | backend/server.js:618-623 | the unit price the details reply shows, times the balance, is the USD value |
| Prices.PrimaryId | backend/server.js:274-287 | exactly the five tracked tickers have a primary-source id |
| Prices.PrimaryIdInjective | backend/server.js:274-280 | distinct tickers ask for distinct ids |
| Prices.FetchPrice | backend/server.js:271-369 | unmapped ids give null; primary answer taken; after a primary failure BTC/ETH/LTC give null, BNB/USDT take the secondary answer |
| Prices.SecondaryOnlyForBnbAndUsdt | backend/server.js:362-367 | a price obtained after a primary failure is always for BNB or USDT |
| Prices.RefreshSymbol | backend/server.js:414-422 | a non-null price sets that symbol's quote and timestamp and nothing else; a null price changes nothing |
| Prices.Refresh | backend/server.js:411-433 | a non-null price overwrites only its symbol's quote, with its timestamp; a null price leaves the previous quote |
| Prices.RefreshEach | backend/server.js:411-433 | visiting any list of symbols one at a time computes the refresh of that list |
| Prices.UpdateCryptoPrices | backend/server.js:404-436 | the loop over the five tracked symbols computes the refresh; null never clears a quote, non-null sets it |
| Payments.RequiredNative | backend/server.js:621 | required native amount × price = total; null when the price is 0 or the total is missing |
| Payments.PaymentDetails | backend/server.js:590-659 | missing row: inserts exactly one row (paid 0, not completed, generated wallet), unsupported currency inserts nothing; existing row: only the target changes, and only while not completed; a completed row is still answered, with its address and stored paid amount; a new row's reply has no paid amount; errors write nothing |
| Payments.DetailsReuseAddress | backend/server.js:606-623 | for an existing row the reply ignores the generator: one address per key |
| Payments.CheckPayment | backend/server.js:549-586 | succeeds exactly when the row exists, the currency dispatches and the balance lookup answers; missing row gives NotFound, unknown currency gives Unsupported, both unchanged; success overwrites only amountPaid with balance × price and reports completed iff paid ≥ target |
| Payments.CheckIgnoresAmount | backend/server.js:576-585 | the request's amount has no influence on a check |
| Payments.CheckIgnoresCompletedFlag | backend/server.js:578-585 | the reported completion does not read the stored completed flag |
| Payments.CompletedInvoiceCanReportUnpaid | backend/server.js:557-585 | a completed invoice with a failed Bitcoin lookup is reported unpaid with amountPaid 0 |
| Payments.UnpricedNeverCompletes | backend/server.js:494-496 | with no usable price a positive target is never reported met |
| Payments.CheckIdempotent | backend/server.js:580-583 | repeating a check with the same balance changes nothing further |
| Payments.Complete | backend/server.js:686-699 | a stored non-empty code is returned and nothing written; otherwise the fresh token is stored with completed set |
| Payments.CompleteAssignsOnce | backend/server.js:519-531 | after one completion, any later completion returns the same code and writes nothing |
| Payments.Reconcile | backend/server.js:676-699 | check then completion: the amount reported and stored is the check's converted balance; the code is issued iff the check found paid ≥ target, is the stored one, and is reused when present |
| Payments.HundredDollarBitcoinExample | backend/server.js:549-586 | 100 USD at 50 000 USD/BTC: 150 000 sat gives 75 USD unpaid; 200 000 sat completes with the token |
| Payments.DetailsEvolves | backend/server.js:604-647 | payment-details keeps wallets, frozen targets of completed rows, codes, and the completed-iff-code invariant |
| Payments.ReconcileEvolves | backend/server.js:513-536 | a check with completion keeps the same |
| Server.PostCheckPayment | backend/server.js:661-716 | falsy fields give MissingParameter; otherwise the table and the error are the reconciliation's; the reply is a completion iff paid ≥ target, and carries the stored code (the old one if present) and the paid amount |
| Server.OnSocketMessage | backend/server.js:504-547 | falsy fields give an error frame without a check; otherwise the table is the reconciliation's and the frame is an error iff the check failed; a completion frame is sent iff paid ≥ target and carries the stored code and no amount |
| Server.Step | backend/server.js:404-716 | only a price tick changes the quotes, and it leaves the table alone; no request removes a row; only a details request adds one, under its own key |
| Server.Run | backend/server.js:590-659 | over a history, rows are never removed, every new row comes from a details request for its key, and quotes change only on a tick |
| Server.RunEvolves | backend/server.js:590-716 | over any sequential history of requests, rows are never removed and only evolve |
| Server.CodeNeverChanges | backend/server.js:689-699 | once a row holds a code, every later history keeps that code, its address and completed |
| Server.ReachableStoresAreWellFormed | backend/server.js:642-647 | from an empty table, completed holds exactly when a code is stored |
| PaymentUri.BuildUri | frontend/src/app/payment/payment.component.ts:268-293 | the payload is empty iff the currency, address or amount is missing/zero or the currency is not Bitcoin, Ethereum, Litecoin or BNB |
| PaymentUri.BuildThenParse | frontend/src/app/payment/payment.component.ts:277-292 | every non-empty payload parses back to the scheme prefix, the encoded address and the encoded amount |
| Client.PackagePrice | frontend/src/app/payment/payment.component.ts:243-246 | the price of the first package with that name; none iff no package has it |
| Client.UpdateProgress | frontend/src/app/payment/payment.component.ts:142-155 | progress × total = paid × 100 when both are known and total > 0; otherwise nothing changes |
| Client.RemainingAmount | frontend/src/app/payment/payment.component.ts:170-174 | remaining + paid = required, with `null` amounts read as 0 (see Left out for `undefined`) |
| Client.ProgressCompleteIffNothingRemains | frontend/src/app/payment/payment.component.ts:142-174 | progress ≥ 100 iff nothing remains to be paid |
| Client.ProgressNotClamped | frontend/src/app/payment/payment.component.ts:147-148 | overpaying shows progress above 100 |
| Client.SetupSocket | frontend/src/app/payment/payment.component.ts:95-97 | a new socket is created iff none is referenced and currency, total and user id are set; otherwise nothing changes |
| Client.OnOpen | frontend/src/app/payment/payment.component.ts:99-101 | an open resets the retry counter to 0 and changes nothing else |
| Client.OpenRestoresRetryBudget | frontend/src/app/payment/payment.component.ts:99-101 | after an open, the next close of an unpaid payment counts as retry 1, whatever came before |
| Client.OnMessage | frontend/src/app/payment/payment.component.ts:109-123 | error frames change nothing; completion sets completed, token, the frame's amount and progress 100; others set paid and recompute progress; nothing else changes |
| Client.OnCloseAsWritten | frontend/src/app/payment/payment.component.ts:130-138 | under the limit and unpaid: count a retry and keep the socket reference; otherwise drop it |
| Client.OnClose | frontend/src/app/payment/payment.component.ts:130-138 | as intended: the reference is always dropped; a retry is counted iff unpaid and under the limit |
| Client.RetryAsWrittenNeverReconnects | frontend/src/app/payment/payment.component.ts:130-138 | as written, the retry timer's setup is a no-op |
| Client.RetryReconnects | frontend/src/app/payment/payment.component.ts:132-134 | as intended, the retry timer opens a fresh socket |
| Client.ResetPaymentState | frontend/src/app/payment/payment.component.ts:184-192 | paid 0, progress 0, not started, not completed, no token, no socket; nothing else changes |
| Client.UpdateWalletDetails | frontend/src/app/payment/payment.component.ts:232-241 | with currency and package selected and the package found, the total becomes its price; in no other case does it change |
| Client.StartCheck | frontend/src/app/payment/payment.component.ts:295-297 | marks the payment started and sets up the socket |
| Client.OnCryptoClick | frontend/src/app/payment/payment.component.ts:220-230 | the reset makes the started branch dead: no socket, not started, not completed; the total becomes the chosen package's price when there is one; user id, address, native amount and the old QR payload are left as they were |
| Client.OnPackageClick | frontend/src/app/payment/payment.component.ts:215-218 | selects the package; with a currency chosen and the package found, the total becomes its price, otherwise it stays |
| Client.OnWalletDetails | frontend/src/app/payment/payment.component.ts:255-264 | stores the address; native amount × unit price = package price; the QR payload is rebuilt from them and progress is recomputed; nothing else changes |
| Client.OnCheckReply | frontend/src/app/payment/payment.component.ts:307-314 | only a completion reply changes state: it sets completed, token and amount, then recomputes progress; nothing else changes |
| Client.CheckReplyAgreesWithFrame | frontend/src/app/payment/payment.component.ts:307-314 | the HTTP reply and the socket frame record the same completion; only progress differs |
| Client.SocketCompletionForgetsAmount | frontend/src/app/payment/payment.component.ts:113-121 | after the socket's completion frame, which carries no amount, the page shows 100 but has lost the amount a pending frame recorded |
| Client.Step | frontend/src/app/payment/payment.component.ts:95-316 | no event takes the retry counter above 5; only choosing a currency clears completion; only a completion frame or reply sets it |
| Client.Run | frontend/src/app/payment/payment.component.ts:68-69 | through any history: 0 ≤ retryAttempts ≤ 5; completion persists until a currency is chosen; completion at the end needs a completion event |
| Client.CompletionClosesForGood | frontend/src/app/payment/payment.component.ts:113-138 | with either close handler, a completion frame and its close leave the page completed, at 100, without a socket or a counted retry |
| Client.RetryTickAfterClose | frontend/src/app/payment/payment.component.ts:130-138 | over a history of close then timer tick: as written no socket is opened, with the corrected handler one is |

`Client.Step` and `Client.Run` take the close handler as a parameter: `AsWritten` runs
`Client.OnCloseAsWritten`, the page as written, and `Reconnecting` runs the corrected
`Client.OnClose` (see Findings). Every property of the event machine holds for both.

## Left out

- Express plumbing is not modelled: middleware, CORS, helmet, rate limiting, the health endpoint,
  server start and upgrade. The validators (currency list, `isFloat`, `trim`) are also left out.
  The handlers are modelled from the point where they read their parameters.
- Logging, database backups and cron cleanup are not modelled; they are file I/O and timers.
- The SQLite driver, axios and TronWeb calls are replaced by their answers as inputs.
- Wallet generation (bip39/bip32/bitcoinjs/ethers/TronWeb) is an opaque input, `Wallet(address, secret)`.
  Address formats are not checked.
- `generateToken` is a fresh-token input. The token may even be empty; an empty stored code is
  re-minted by the next completion, as in the code.
- Concurrent checks racing on `uniqueCode` are not modelled. The code has no atomic assign-once,
  so only sequential histories are modelled. A losing concurrent `INSERT` is not modelled either.
- Floating point is modelled as exact `real` arithmetic. `parseFloat`, `Number(BigInt)` rounding,
  NaN and Infinity are not modelled.
- Prices.FetchPrice: a secondary rate that `parseFloat` turns into NaN would be stored as a quote in
  the code; the model only has numeric or missing answers.
- Payments.RequiredNative: a non-finite quotient is modelled as null, which is how JSON sends it.
- Client.OnWalletDetails: a zero unit price gives an Infinity amount in the code (and a QR payload
  with `amount=Infinity`); the model has no amount there.
- Server.OnSocketMessage: the frame's `amount` is modelled as a number. A string amount such as
  `"0"` is truthy in JavaScript; that case is not modelled. A frame that is not valid JSON throws
  outside the handler's `try` and gets no reply; that is not modelled either.
- Client.RemainingAmount: reads a missing amount as 0, which is right for `null` only. After a
  socket completion frame the code holds `undefined`, and `Number(undefined)` is NaN, so the page's
  remaining amount is NaN where the model gives the full required amount.
- Text.Upper: `toUpperCase` is modelled for ASCII letters only.
- Per-symbol timestamps come from the feed; the delay between symbols is not modelled.
- The extra SELECT in `/api/check-payment` when something was paid reads a row and discards it.
  It is not modelled because it has no effect.
- Client-side framework code is not modelled: rxjs subscriptions, `debounceTime`, the 30-second
  `setTimeout` delay (the timer firing is the `Connect` event), `localStorage`, the clipboard, the
  e-mail form, `alert` in `onerror`, and `ngOnDestroy`.
- The frame `onopen` sends, and the write-only `prices` cache on the page, are not modelled.
- `ws.close()` in the completion handler and in `resetPaymentState` only requests a close. The
  browser's close event arrives later as a separate `Closed` event.
- An `amountPaid` left undefined by a socket completion frame is modelled as null. In the code,
  a later `updateProgress` would throw on it instead.
- The other frontend files are not part of this model: `app.component.ts`, `home.component.ts`,
  `app.config.ts` and `payment.service.ts`. They hold UI, routing and a thin HTTP wrapper.

## Findings

| source | as written | input that shows it | evidently intended | confidence | as-written member | corrected member |
|---|---|---|---|---|---|---|
| frontend/src/app/payment/payment.component.ts:130-138 | the retry branch of `onclose` counts a retry and schedules `setupWebSocket`, but keeps `this.ws` pointing at the closed socket, so the scheduled call fails its `!this.ws` guard | an open socket, payment not completed, `retryAttempts` 0: the socket closes, the counter becomes 1, the timer fires, and no socket is created | drop the closed socket before retrying, so that the timer reconnects (up to 5 times) | high, not executed | Client.RetryAsWrittenNeverReconnects | Client.RetryReconnects |

Two limits of the corrected handler. First, as written, a close that arrives after
`resetPaymentState` has already cleared `ws` does reconnect; the defect needs a referenced socket.
Second, the corrected handler drops the reference whatever it points to. Events carry no socket
identity, so a stale close arriving after a newer socket opened would drop the newer one too.
A full fix would compare the closing socket with `this.ws` first.

=== FILE: client.dfy ===
/** The payment page's state machine: package and currency selection, the wallet-details reply,
    the progress bar, and the notification socket with its bounded reconnect counter. */
module Client {
  import opened Wrappers
  import opened Text
  import opened Seqs
  import opened Frames
  import opened PaymentUri

  /** How many times a closed socket is retried before the page gives up. */
  const MaxRetries: nat := 5

  /** A product on offer, with its price already parsed from the catalogue's decimal text. */
  datatype Package = Package(name: string, price: real)

  /** The page's catalogue. */
  const Packages: seq<Package> :=
    [Package("Product 1", 9.99), Package("Product 2", 19.99), Package("Product 3", 29.99)]

  /** The price of the first package with the given name, if one has it. */
  function PackagePrice(packages: seq<Package>, name: string): (r: Option<real>)
    ensures r.None? <==> forall i :: 0 <= i < |packages| ==> packages[i].name != name
    ensures r.Some? ==>
              exists i :: 0 <= i < |packages| && packages[i].name == name && packages[i].price == r.value
                          && forall j :: 0 <= j < i ==> packages[j].name != name
  {
    match FindFirst(packages, (p: Package) => p.name == name)
    case None => None
    case Some(i) => Some(packages[i].price)
  }

  /** The component's fields that take part in the payment flow. `ws` is the id of the socket the
      component refers to (`null` when None); sockets are numbered in creation order. */
  datatype ClientState = ClientState(
    userId: Option<string>,
    selectedPackage: Option<string>,
    selectedCrypto: Option<string>,
    totalAmountRequired: Option<real>,
    cryptoAddress: string,
    cryptoAmountRequired: Option<real>,
    qrData: string,
    amountPaid: Option<real>,
    progress: real,
    paymentCompleted: bool,
    paymentToken: Option<string>,
    paymentStarted: bool,
    retryAttempts: nat,
    ws: Option<nat>,
    socketsCreated: nat)

  /** The state after initialisation: a user id, and the package stream's first (empty) selection. */
  function InitialState(userId: string): ClientState {
    ClientState(Some(userId), None, None, None, "", Some(0.0), "", None, 0.0, false, None, false, 0, None, 0)
  }

  /** Recompute progress as paid / total × 100 when both are known and the total is positive;
      otherwise leave it unchanged. The result is not clamped to 100. */
  function UpdateProgress(s: ClientState): (r: ClientState)
    ensures r == s.(progress := r.progress)
    ensures s.amountPaid.Some? && s.totalAmountRequired.Some? && s.totalAmountRequired.value > 0.0 ==>
              r.progress * s.totalAmountRequired.value == s.amountPaid.value * 100.0
    ensures !(s.amountPaid.Some? && s.totalAmountRequired.Some? && s.totalAmountRequired.value > 0.0) ==> r == s
  {
    if s.amountPaid.Some? && s.totalAmountRequired.Some? && s.totalAmountRequired.value > 0.0
    then s.(progress := s.amountPaid.value / s.totalAmountRequired.value * 100.0)
    else s
  }

  /** `remainingAmount`: required minus paid, reading a missing value as 0. */
  function RemainingAmount(s: ClientState): (r: real)
    ensures r + s.amountPaid.GetOr(0.0) == s.totalAmountRequired.GetOr(0.0)
  {
    s.totalAmountRequired.GetOr(0.0) - s.amountPaid.GetOr(0.0)
  }

  /** The progress bar reaches 100 exactly when nothing remains to be paid. */
  lemma ProgressCompleteIffNothingRemains(s: ClientState)
    requires s.amountPaid.Some? && s.totalAmountRequired.Some? && s.totalAmountRequired.value > 0.0
    ensures UpdateProgress(s).progress >= 100.0 <==> RemainingAmount(s) <= 0.0
  {
  }

  /** Progress is not clamped: overpaying shows more than 100. */
  lemma ProgressNotClamped(userId: string)
    ensures var s := InitialState(userId).(amountPaid := Some(20.0), totalAmountRequired := Some(10.0));
            UpdateProgress(s).progress == 200.0
  {
  }

  /** The guard of `setupWebSocket`: no socket yet, and a currency, a total and a user id to send. */
  predicate MayConnect(s: ClientState) {
    s.ws.None? && Truthy(s.selectedCrypto) && s.totalAmountRequired.Some? && Truthy(s.userId)
  }

  /** `setupWebSocket`: create a new socket when the guard allows, otherwise do nothing. */
  function SetupSocket(s: ClientState): (r: ClientState)
    ensures r == s.(ws := r.ws, socketsCreated := r.socketsCreated)
    ensures r.socketsCreated != s.socketsCreated <==> MayConnect(s)
    ensures MayConnect(s) ==> r.ws == Some(s.socketsCreated) && r.socketsCreated == s.socketsCreated + 1
    ensures !MayConnect(s) ==> r == s
  {
    if MayConnect(s) then s.(ws := Some(s.socketsCreated), socketsCreated := s.socketsCreated + 1)
    else s
  }

  /** `onopen`: the retry counter starts again (the subscription frame it sends is output only). */
  function OnOpen(s: ClientState): (r: ClientState)
    ensures r.retryAttempts == 0
    ensures r.(retryAttempts := s.retryAttempts) == s
  {
    s.(retryAttempts := 0)
  }

  /** `onmessage`: an error frame changes nothing; a completion frame records the code, the amount it
      carries and full progress (and asks the socket to close); any other frame records the amount paid
      and recomputes progress. */
  function OnMessage(s: ClientState, f: ServerFrame): (r: ClientState)
    ensures r.ws == s.ws && r.retryAttempts == s.retryAttempts && r.socketsCreated == s.socketsCreated
    ensures f.ErrorFrame? ==> r == s
    ensures f.CompletedFrame? ==>
              r == s.(paymentCompleted := true, paymentToken := Some(f.uniqueCode), progress := 100.0,
                      amountPaid := f.paidIfSent)
    ensures f.PendingFrame? ==> r == UpdateProgress(s.(amountPaid := Some(f.amountPaid)))
    ensures f.PendingFrame? ==>
              r.amountPaid == Some(f.amountPaid) && r.paymentCompleted == s.paymentCompleted
              && r.paymentToken == s.paymentToken
              && (s.totalAmountRequired.Some? && s.totalAmountRequired.value > 0.0 ==>
                    r.progress * s.totalAmountRequired.value == f.amountPaid * 100.0)
  {
    match f
    case ErrorFrame(_) => s
    case CompletedFrame(code, paid) =>
      s.(paymentCompleted := true, paymentToken := Some(code), progress := 100.0, amountPaid := paid)
    case PendingFrame(paid) => UpdateProgress(s.(amountPaid := Some(paid)))
  }

  /** `onclose` as written: while unpaid and under the limit, count a retry and schedule
      `setupWebSocket`, but keep the reference to the closed socket; otherwise drop the reference. */
  function OnCloseAsWritten(s: ClientState): (r: ClientState)
    ensures !s.paymentCompleted && s.retryAttempts < MaxRetries ==>
              r == s.(retryAttempts := s.retryAttempts + 1)
    ensures !(!s.paymentCompleted && s.retryAttempts < MaxRetries) ==> r == s.(ws := None)
  {
    if !s.paymentCompleted && s.retryAttempts < MaxRetries then s.(retryAttempts := s.retryAttempts + 1)
    else s.(ws := None)
  }

  /** `onclose` as intended: the same, except that a retry also drops the closed socket so that the
      scheduled `setupWebSocket` can open a new one. */
  function OnClose(s: ClientState): (r: ClientState)
    ensures r.ws.None?
    ensures r.retryAttempts <= MaxRetries || r.retryAttempts == s.retryAttempts
    ensures r.retryAttempts == s.retryAttempts + 1 <==> !s.paymentCompleted && s.retryAttempts < MaxRetries
    ensures r == s.(ws := None, retryAttempts := r.retryAttempts)
  {
    if !s.paymentCompleted && s.retryAttempts < MaxRetries then s.(retryAttempts := s.retryAttempts + 1, ws := None)
    else s.(ws := None)
  }

  /** Every successful open restores the full retry budget: the next close of an unpaid payment is
      counted as the first retry, however many retries came before. */
  lemma OpenRestoresRetryBudget(s: ClientState)
    requires !s.paymentCompleted
    ensures OnClose(OnOpen(s)).retryAttempts == 1
    ensures OnCloseAsWritten(OnOpen(s)).retryAttempts == 1
  {
  }

  /** As written, the retry timer finds the old socket still referenced, so it never reconnects. */
  lemma RetryAsWrittenNeverReconnects(s: ClientState)
    requires s.ws.Some? && !s.paymentCompleted && s.retryAttempts < MaxRetries
    ensures var closed := OnCloseAsWritten(s);
            closed.retryAttempts == s.retryAttempts + 1 && SetupSocket(closed) == closed
  {
  }

  /** As intended, the retry timer opens a new socket whenever the page still has what it needs to send. */
  lemma RetryReconnects(s: ClientState)
    requires !s.paymentCompleted && s.retryAttempts < MaxRetries
    requires Truthy(s.selectedCrypto) && s.totalAmountRequired.Some? && Truthy(s.userId)
    ensures var again := SetupSocket(OnClose(s));
            again.ws == Some(s.socketsCreated) && again.socketsCreated == s.socketsCreated + 1
            && again.retryAttempts == s.retryAttempts + 1
  {
  }

  /** `resetPaymentState`: nothing paid, no progress, not started, not completed, no token, no socket. */
  function ResetPaymentState(s: ClientState): (r: ClientState)
    ensures r.amountPaid == Some(0.0) && r.progress == 0.0
    ensures !r.paymentStarted && !r.paymentCompleted && r.paymentToken.None? && r.ws.None?
    ensures r.(amountPaid := s.amountPaid, progress := s.progress, paymentStarted := s.paymentStarted,
               paymentCompleted := s.paymentCompleted, paymentToken := s.paymentToken, ws := s.ws) == s
  {
    s.(amountPaid := Some(0.0), progress := 0.0, paymentStarted := false, paymentCompleted := false,
       paymentToken := None, ws := None)
  }

  /** `updateWalletDetails`: with a currency and a package selected and the package found, the total
      becomes the package price (and the wallet-details request goes out). */
  function UpdateWalletDetails(s: ClientState): (r: ClientState)
    ensures r == s.(totalAmountRequired := r.totalAmountRequired)
    ensures r.totalAmountRequired != s.totalAmountRequired ==>
              Truthy(s.selectedCrypto) && Truthy(s.selectedPackage)
              && r.totalAmountRequired == PackagePrice(Packages, s.selectedPackage.value)
    ensures Truthy(s.selectedCrypto) && Truthy(s.selectedPackage)
            && PackagePrice(Packages, s.selectedPackage.value).Some? ==>
              r.totalAmountRequired == PackagePrice(Packages, s.selectedPackage.value)
  {
    if Truthy(s.selectedCrypto) && Truthy(s.selectedPackage) then
      match PackagePrice(Packages, s.selectedPackage.value)
      case Some(total) => s.(totalAmountRequired := Some(total))
      case None => s
    else s
  }

  /** `checkPaymentStatus`: mark the payment started and set up the socket (the HTTP check goes out). */
  function StartCheck(s: ClientState): (r: ClientState)
    ensures r.paymentStarted
    ensures r == SetupSocket(s).(paymentStarted := true)
  {
    SetupSocket(s.(paymentStarted := true))
  }

  /** `onCryptoClick`: reset, select the currency, refresh the wallet details, and set up the socket
      if the payment had been started. The reset just before the `paymentStarted` test makes that
      branch dead: choosing a currency never opens a socket and always leaves the payment not started.
      With a package already chosen and found, the total becomes that package's price. */
  function OnCryptoClick(s: ClientState, crypto: string): (r: ClientState)
    ensures r.ws.None? && !r.paymentStarted && !r.paymentCompleted && r.paymentToken.None?
    ensures r.socketsCreated == s.socketsCreated && r.retryAttempts == s.retryAttempts
    ensures r.selectedCrypto == Some(crypto) && r.selectedPackage == s.selectedPackage
    ensures r.progress == 0.0 && r.amountPaid == Some(0.0)
    ensures r.userId == s.userId && r.cryptoAddress == s.cryptoAddress
            && r.cryptoAmountRequired == s.cryptoAmountRequired && r.qrData == s.qrData
    ensures crypto != "" && Truthy(s.selectedPackage) && PackagePrice(Packages, s.selectedPackage.value).Some? ==>
              r.totalAmountRequired == PackagePrice(Packages, s.selectedPackage.value)
    ensures !(crypto != "" && Truthy(s.selectedPackage) && PackagePrice(Packages, s.selectedPackage.value).Some?) ==>
              r.totalAmountRequired == s.totalAmountRequired
  {
    var w := UpdateWalletDetails(ResetPaymentState(s).(selectedCrypto := Some(crypto)));
    if w.paymentStarted then StartCheck(SetupSocket(w)) else w
  }

  /** `onPackageClick`: select the package and refresh the wallet details. */
  function OnPackageClick(s: ClientState, packageName: string): (r: ClientState)
    ensures r == s.(selectedPackage := Some(packageName), totalAmountRequired := r.totalAmountRequired)
    ensures Truthy(s.selectedCrypto) && packageName != "" && PackagePrice(Packages, packageName).Some? ==>
              r.totalAmountRequired == PackagePrice(Packages, packageName)
    ensures !(Truthy(s.selectedCrypto) && packageName != "" && PackagePrice(Packages, packageName).Some?) ==>
              r.totalAmountRequired == s.totalAmountRequired
  {
    UpdateWalletDetails(s.(selectedPackage := Some(packageName)))
  }

  /** The wallet-details reply: store the address, derive the native amount from the package price and
      the unit price, rebuild the QR payload, and recompute progress. A zero unit price makes the
      division non-finite, which is read here as no amount. */
  function OnWalletDetails(s: ClientState, address: string, price: real, codec: UriCodec): (r: ClientState)
    ensures r.cryptoAddress == address
    ensures var total := PackagePrice(Packages, s.selectedPackage.GetOr(""));
            r.cryptoAmountRequired.Some? <==> TruthyNumber(total) && price != 0.0
    ensures r.cryptoAmountRequired.Some? ==>
              r.cryptoAmountRequired.value * price == PackagePrice(Packages, s.selectedPackage.GetOr("")).value
    ensures r.qrData == BuildUri(s.selectedCrypto, address, r.cryptoAmountRequired, codec)
    ensures r.ws == s.ws && r.retryAttempts == s.retryAttempts && r.paymentCompleted == s.paymentCompleted
    ensures r == UpdateProgress(s.(cryptoAddress := address, cryptoAmountRequired := r.cryptoAmountRequired,
                                   qrData := r.qrData))
  {
    var total := PackagePrice(Packages, s.selectedPackage.GetOr(""));
    var amount := if TruthyNumber(total) && price != 0.0 then Some(total.value / price) else None;
    UpdateProgress(s.(cryptoAddress := address, cryptoAmountRequired := amount,
                      qrData := BuildUri(s.selectedCrypto, address, amount, codec)))
  }

  /** The HTTP check's reply: a completion records the code and amount and recomputes progress;
      anything else is ignored. */
  function OnCheckReply(s: ClientState, f: ServerFrame): (r: ClientState)
    ensures !f.CompletedFrame? ==> r == s
    ensures f.CompletedFrame? ==>
              r.paymentCompleted && r.paymentToken == Some(f.uniqueCode) && r.amountPaid == f.paidIfSent
    ensures f.CompletedFrame? ==>
              r == UpdateProgress(s.(paymentCompleted := true, paymentToken := Some(f.uniqueCode),
                                     amountPaid := f.paidIfSent))
    ensures r.ws == s.ws && r.retryAttempts == s.retryAttempts
  {
    match f
    case CompletedFrame(code, paid) =>
      UpdateProgress(s.(paymentCompleted := true, paymentToken := Some(code), amountPaid := paid))
    case _ => s
  }

  /** The HTTP reply and the socket frame record the same completion (flag, code and amount); they
      differ only in progress, which the frame forces to 100 and the reply recomputes from the amount. */
  lemma CheckReplyAgreesWithFrame(s: ClientState, code: string, paid: Option<real>)
    ensures var viaReply := OnCheckReply(s, CompletedFrame(code, paid));
            var viaFrame := OnMessage(s, CompletedFrame(code, paid));
            viaReply == viaFrame.(progress := viaReply.progress)
            && viaFrame.progress == 100.0
            && (paid.Some? && s.totalAmountRequired.Some? && s.totalAmountRequired.value > 0.0 ==>
                  viaReply.progress * s.totalAmountRequired.value == paid.value * 100.0)
  {
  }

  /** The socket's completion frame carries no amount, so after it the page shows full progress
      but no longer knows what was paid, whatever a pending frame had recorded before. */
  lemma SocketCompletionForgetsAmount(s: ClientState, paid: real, code: string)
    ensures var r := OnMessage(OnMessage(s, PendingFrame(paid)), CompletedFrame(code, None));
            r.paymentCompleted && r.progress == 100.0 && r.amountPaid.None?
  {
  }

  /** What can happen to the page: user clicks, replies, socket events, and the retry timer
      (which calls `setupWebSocket`, as `Connect` does). */
  datatype Event =
    | Connect
    | Opened
    | Message(frame: ServerFrame)
    | Closed
    | CryptoClicked(crypto: string)
    | PackageClicked(packageName: string)
    | WalletDetailsArrived(address: string, price: real)
    | CheckStarted
    | CheckReplied(reply: ServerFrame)

  /** Which `onclose` the page runs: the one in payment.component.ts, or the corrected one that
      drops the closed socket before a retry. */
  datatype CloseHandler = AsWritten | Reconnecting

  /** The close handler's effect. */
  function Close(h: CloseHandler, s: ClientState): ClientState {
    match h
    case AsWritten => OnCloseAsWritten(s)
    case Reconnecting => OnClose(s)
  }

  /** The events that report a completed payment: a completion frame on the socket or in the HTTP reply. */
  predicate Completes(e: Event) {
    (e.Message? && e.frame.CompletedFrame?) || (e.CheckReplied? && e.reply.CompletedFrame?)
  }

  /** The state after one event; `Step(AsWritten, ...)` is the page as written. No event takes the
      retry counter past its limit; only choosing a currency clears a completed payment, and only a
      completion frame or reply sets it. */
  function Step(h: CloseHandler, s: ClientState, e: Event, codec: UriCodec): (r: ClientState)
    ensures s.retryAttempts <= MaxRetries ==> r.retryAttempts <= MaxRetries
    ensures s.paymentCompleted && !e.CryptoClicked? ==> r.paymentCompleted
    ensures r.paymentCompleted && !s.paymentCompleted ==> Completes(e)
    ensures Completes(e) ==> r.paymentCompleted
    ensures r.socketsCreated >= s.socketsCreated
  {
    match e
    case Connect => SetupSocket(s)
    case Opened => OnOpen(s)
    case Message(f) => OnMessage(s, f)
    case Closed => Close(h, s)
    case CryptoClicked(crypto) => OnCryptoClick(s, crypto)
    case PackageClicked(name) => OnPackageClick(s, name)
    case WalletDetailsArrived(address, price) => OnWalletDetails(s, address, price, codec)
    case CheckStarted => StartCheck(s)
    case CheckReplied(f) => OnCheckReply(s, f)
  }

  /** The state after a sequence of events. The retry counter stays within 0..MaxRetries; a completed
      payment stays completed until a currency is chosen; and the page is completed at the end only if
      it was at the start or some event reported a completion. */
  function Run(h: CloseHandler, s: ClientState, es: seq<Event>, codec: UriCodec): (r: ClientState)
    ensures s.retryAttempts <= MaxRetries ==> r.retryAttempts <= MaxRetries
    ensures s.paymentCompleted && (forall i :: 0 <= i < |es| ==> !es[i].CryptoClicked?) ==> r.paymentCompleted
    ensures r.paymentCompleted ==> s.paymentCompleted || exists i :: 0 <= i < |es| && Completes(es[i])
    ensures r.socketsCreated >= s.socketsCreated
    decreases |es|
  {
    if es == [] then s
    else
      var r := Run(h, Step(h, s, es[0], codec), es[1..], codec);
      assert forall i :: 0 <= i < |es[1..]| ==> es[1..][i] == es[i + 1];
      r
  }

  /** A completion frame followed by the close it requests leaves the page completed at full progress,
      without a socket and without counting a retry, whichever close handler runs. */
  lemma CompletionClosesForGood(h: CloseHandler, s: ClientState, code: string, codec: UriCodec)
    ensures var r := Run(h, s, [Message(CompletedFrame(code, None)), Closed], codec);
            r.paymentCompleted && r.paymentToken == Some(code) && r.progress == 100.0
            && r.ws.None? && r.retryAttempts == s.retryAttempts
  {
    var m := Step(h, s, Message(CompletedFrame(code, None)), codec);
    assert Run(h, s, [Message(CompletedFrame(code, None)), Closed], codec) == Run(h, m, [Closed], codec);
    assert Run(h, m, [Closed], codec) == Run(h, Close(h, m), [], codec);
  }

  /** Over whole histories: as written, a close followed by the retry timer's tick opens no socket;
      with the corrected handler the same history opens a fresh one. */
  lemma RetryTickAfterClose(s: ClientState, codec: UriCodec)
    requires s.ws.Some? && !s.paymentCompleted && s.retryAttempts < MaxRetries
    requires Truthy(s.selectedCrypto) && s.totalAmountRequired.Some? && Truthy(s.userId)
    ensures Run(AsWritten, s, [Closed, Connect], codec).socketsCreated == s.socketsCreated
    ensures Run(Reconnecting, s, [Closed, Connect], codec).socketsCreated == s.socketsCreated + 1
  {
    assert Run(AsWritten, s, [Closed, Connect], codec)
        == Run(AsWritten, OnCloseAsWritten(s), [Connect], codec);
    assert Run(Reconnecting, s, [Closed, Connect], codec)
        == Run(Reconnecting, OnClose(s), [Connect], codec);
  }
}

=== FILE: frames.dfy ===
/** The JSON bodies the server sends for a check, over the socket or from `/api/check-payment`. */
module Frames {
  import opened Wrappers

  /** `{error}`, `{paymentCompleted: false, amountPaid}` or `{paymentCompleted: true, uniqueCode, amountPaid?}`. */
  datatype ServerFrame =
    | ErrorFrame(message: string)
    | PendingFrame(amountPaid: real)
    | CompletedFrame(uniqueCode: string, paidIfSent: Option<real>)
}

=== FILE: payment_uri.dfy ===
/** The payment URI the client renders as a QR code (`bitcoin:<address>?amount=<amount>` in the
    BIP 21 form for Bitcoin), and a parser that reads it back. */
module PaymentUri {
  import opened Wrappers
  import opened Text

  /** The host conversions the builder uses: `encodeURIComponent` and number-to-string. */
  datatype UriCodec = UriCodec(encode: string -> string, show: real -> string)

  /** `encodeURIComponent` escapes ':' and '?', so neither appears in what it returns. */
  ghost predicate Escapes(codec: UriCodec) {
    forall s :: ':' !in codec.encode(s) && '?' !in codec.encode(s)
  }

  /** The URI prefix per currency name; BNB gets a bare address, every other name no URI at all. */
  function SchemeOf(crypto: string): Option<string> {
    if crypto == "Bitcoin" then Some("bitcoin:")
    else if crypto == "Ethereum" then Some("ethereum:")
    else if crypto == "Litecoin" then Some("litecoin:")
    else if crypto == "BNB" then Some("")
    else None
  }

  /** The query that follows the address. */
  const AmountQuery := "?amount="

  /** The QR payload: empty when the currency, the address or the amount is missing (or the amount is
      zero), or when the currency has no URI form; otherwise prefix, address and amount. */
  function BuildUri(crypto: Option<string>, address: string, amount: Option<real>, codec: UriCodec): (r: string)
    ensures r == "" <==>
              !Truthy(crypto) || address == "" || !TruthyNumber(amount) || SchemeOf(crypto.value).None?
  {
    if !Truthy(crypto) || address == "" || !TruthyNumber(amount) then ""
    else match SchemeOf(crypto.value)
      case None => ""
      case Some(prefix) => prefix + codec.encode(address) + AmountQuery + codec.encode(codec.show(amount.value))
  }

  /** The parts of a payment URI: prefix (including its ':'), address, and amount text. */
  datatype UriParts = UriParts(prefix: string, address: string, amount: string)

  /** Read a payment URI: split at the first '?', require `amount=` after it, and split the part
      before it at its first ':' when there is one. */
  function ParseUri(u: string): Option<UriParts> {
    match IndexOf(u, '?')
    case None => None
    case Some(q) =>
      var head := u[..q];
      var query := u[q..];
      if |query| < |AmountQuery| || query[..|AmountQuery|] != AmountQuery then None
      else
        var amount := query[|AmountQuery|..];
        match IndexOf(head, ':')
        case None => Some(UriParts("", head, amount))
        case Some(c) => Some(UriParts(head[..c + 1], head[c + 1..], amount))
  }

  /** A prefix has no '?', and is either empty or a scheme name without ':' followed by one ':'. */
  predicate PrefixShaped(prefix: string) {
    '?' !in prefix
    && (prefix == "" || (prefix[|prefix| - 1] == ':' && ':' !in prefix[..|prefix| - 1]))
  }

  /** Every currency's prefix has that shape. */
  lemma SchemesAreShaped(crypto: string)
    requires SchemeOf(crypto).Some?
    ensures PrefixShaped(SchemeOf(crypto).value)
  {
  }

  /** The first '?' of `head ?amount= n` is the one the query adds, when `head` has none. */
  lemma QuerySplit(head: string, n: string)
    requires '?' !in head
    ensures var u := head + AmountQuery + n;
            IndexOf(u, '?') == Some(|head|) && u[..|head|] == head && u[|head|..] == AmountQuery + n
  {
    var u := head + AmountQuery + n;
    assert u == head + ['?'] + ("amount=" + n);
    IndexOfSplit(head, '?', "amount=" + n);
  }

  /** The first ':' of `prefix address` ends the prefix, or there is none when the prefix is empty,
      provided the address has no ':' of its own. */
  lemma HeadSplit(prefix: string, a: string)
    requires PrefixShaped(prefix) && ':' !in a
    ensures prefix == "" ==> IndexOf(prefix + a, ':').None?
    ensures prefix != "" ==>
              IndexOf(prefix + a, ':') == Some(|prefix| - 1)
              && (prefix + a)[..|prefix|] == prefix && (prefix + a)[|prefix|..] == a
  {
    if prefix == "" {
      assert prefix + a == a;
    } else {
      var scheme := prefix[..|prefix| - 1];
      assert prefix + a == scheme + [':'] + a;
      IndexOfSplit(scheme, ':', a);
    }
  }

  /** A well-shaped prefix, an address without ':' or '?', and any amount text read back as themselves. */
  lemma {:induction false} ParseJoined(prefix: string, a: string, n: string)
    requires PrefixShaped(prefix) && ':' !in a && '?' !in a
    ensures ParseUri(prefix + a + AmountQuery + n) == Some(UriParts(prefix, a, n))
  {
    var head := prefix + a;
    assert '?' !in head;
    assert prefix + a + AmountQuery + n == head + AmountQuery + n;
    QuerySplit(head, n);
    var query := (head + AmountQuery + n)[|head|..];
    assert query[..|AmountQuery|] == AmountQuery && query[|AmountQuery|..] == n;
    HeadSplit(prefix, a);
    if prefix == "" {
      assert head == a;
    }
  }

  /** Every non-empty payload reads back as the currency's prefix, the encoded address and the
      encoded amount. */
  lemma {:induction false} BuildThenParse(crypto: Option<string>, address: string, amount: Option<real>, codec: UriCodec)
    requires Escapes(codec)
    requires BuildUri(crypto, address, amount, codec) != ""
    ensures ParseUri(BuildUri(crypto, address, amount, codec))
            == Some(UriParts(SchemeOf(crypto.value).value, codec.encode(address), codec.encode(codec.show(amount.value))))
  {
    SchemesAreShaped(crypto.value);
    ParseJoined(SchemeOf(crypto.value).value, codec.encode(address), codec.encode(codec.show(amount.value)));
  }
}

=== FILE: payments.dfy ===
/** The payments table and the operations the server performs on it: create-or-update on a
    payment-details request, the balance check, and completion with an assign-once code. */
module Payments {
  import opened Wrappers
  import opened Text
  import opened Units
  import opened Prices

  /** One row of the payments table. */
  datatype Invoice = Invoice(
    totalAmount: real,
    amountPaid: real,
    completed: bool,
    address: string,
    seedPhrase: string,
    uniqueCode: Option<string>)

  /** The table's unique key: (userId, crypto). */
  type Key = (string, string)

  /** The table; a map holds at most one row per key, as the UNIQUE constraint demands. */
  type Store = map<Key, Invoice>

  /** What the wallet generator for a chain returns: a deposit address and its secret. */
  datatype Wallet = Wallet(address: string, secret: string)

  /** A reply together with the table it leaves behind. */
  datatype Reply<+R> = Reply(result: Result<R, Failure>, store: Store)

  /** A confirmation code is present when it is stored and not empty (an empty one is re-minted). */
  predicate HasCode(inv: Invoice) {
    inv.uniqueCode.Some? && inv.uniqueCode.value != ""
  }

  /** The table invariant the operations keep: `completed` is set exactly when a code is stored. */
  ghost predicate CodeIffCompleted(s: Store) {
    forall k :: k in s ==> (s[k].completed <==> s[k].uniqueCode.Some?)
  }

  /** A freshly created row: nothing paid, not completed, no code. */
  function NewInvoice(total: real, wallet: Wallet): Invoice {
    Invoice(total, 0.0, false, wallet.address, wallet.secret, None)
  }

  /** What a row may become: its wallet never changes; once completed it stays completed with a frozen
      target; once it holds a code, the code never changes. */
  ghost predicate Evolves(a: Invoice, b: Invoice) {
    && b.address == a.address
    && b.seedPhrase == a.seedPhrase
    && (a.completed ==> b.completed && b.totalAmount == a.totalAmount)
    && (HasCode(a) ==> b.uniqueCode == a.uniqueCode)
  }

  /** Every row of `s` is still present in `t` and has only evolved. */
  ghost predicate StoreEvolves(s: Store, t: Store) {
    forall k :: k in s ==> k in t && Evolves(s[k], t[k])
  }

  // ---------------------------------------------------------------------------------------------
  // GET /api/payment-details

  /** The payment-details reply: deposit address, USD unit price, native amount required, and
      (for an existing row) the amount paid so far. */
  datatype Details = Details(address: string, price: real, required: Option<real>, amountPaid: Option<real>)

  /** `total / price` as the client receives it: a division by a zero price (or of a missing total)
      is not a finite number and serialises as null. */
  function RequiredNative(total: Option<real>, price: real): (r: Option<real>)
    ensures r.Some? <==> total.Some? && price != 0.0
    ensures r.Some? ==> r.value * price == total.value
  {
    if total.Some? && price != 0.0 then Some(total.value / price) else None
  }

  /** Create the row for (userId, crypto) if it is absent, otherwise update its target amount while it
      is not completed. A missing `total` violates the table's NOT NULL constraint. */
  function PaymentDetails(store: Store, prices: PriceTable, userId: string, crypto: string,
                          total: Option<real>, wallet: Wallet): (r: Reply<Details>)
    ensures r.result.Err? ==> r.store == store
    ensures crypto == "" || userId == "" ==> r.result == Err(MissingParameter)
    // at most one row is inserted, under the request's key, and no row is removed
    ensures r.store.Keys == store.Keys
            || ((userId, crypto) !in store && r.store.Keys == store.Keys + {(userId, crypto)})
    ensures forall k :: k in store && k != (userId, crypto) ==> k in r.store && r.store[k] == store[k]
    // an existing row: only its target may change, and only while it is not completed
    ensures (userId, crypto) in store ==>
              r.store.Keys == store.Keys
              && r.store[(userId, crypto)] == store[(userId, crypto)].(totalAmount := r.store[(userId, crypto)].totalAmount)
    ensures (userId, crypto) in store && store[(userId, crypto)].completed ==> r.store == store
    ensures crypto != "" && userId != "" && (userId, crypto) in store && store[(userId, crypto)].completed ==>
              r.result.Ok?
    ensures (userId, crypto) in store && r.result.Ok? ==>
              r.result.value.amountPaid == Some(store[(userId, crypto)].amountPaid)
    ensures (userId, crypto) !in store && r.result.Ok? ==> r.result.value.amountPaid.None?
    ensures (userId, crypto) in store && !store[(userId, crypto)].completed && crypto != "" && userId != "" ==>
              (r.result.Ok? <==> total.Some?)
              && (total.Some? ==> r.store[(userId, crypto)].totalAmount == total.value)
    // a missing row: created from the generated wallet when the currency and total are usable
    ensures (userId, crypto) !in store && crypto != "" && userId != "" ==>
              (r.result.Ok? <==> ChainOf(crypto).Some? && total.Some?)
              && (ChainOf(crypto).None? ==> r.result == Err(Unsupported))
    ensures (userId, crypto) !in store && r.result.Ok? ==>
              total.Some? && (userId, crypto) in r.store
              && r.store[(userId, crypto)] == Invoice(total.value, 0.0, false, wallet.address, wallet.secret, None)
    // the reply always shows the stored address and the current unit price
    ensures r.result.Ok? ==>
              (userId, crypto) in r.store
              && r.result.value.address == r.store[(userId, crypto)].address
              && r.result.value.price == ConvertToUsd(prices, 1.0, crypto)
              && r.result.value.required == RequiredNative(total, r.result.value.price)
  {
    if crypto == "" || userId == "" then Reply(Err(MissingParameter), store)
    else
      var key := (userId, crypto);
      var price := ConvertToUsd(prices, 1.0, crypto);
      if key in store then
        var inv := store[key];
        var reply := Details(inv.address, price, RequiredNative(total, price), Some(inv.amountPaid));
        if inv.completed then Reply(Ok(reply), store)
        else if total.None? then Reply(Err(NotNullViolation), store)
        else Reply(Ok(reply), store[key := inv.(totalAmount := total.value)])
      else if ChainOf(crypto).None? then Reply(Err(Unsupported), store)
      else if total.None? then Reply(Err(NotNullViolation), store)
      else
        Reply(Ok(Details(wallet.address, price, RequiredNative(total, price), None)),
              store[key := NewInvoice(total.value, wallet)])
  }

  /** Asking again for an existing row returns the same deposit address whatever wallet the
      generator would have produced: an address is issued once per key. */
  lemma DetailsReuseAddress(store: Store, prices: PriceTable, userId: string, crypto: string,
                            total: Option<real>, w1: Wallet, w2: Wallet)
    requires (userId, crypto) in store
    ensures PaymentDetails(store, prices, userId, crypto, total, w1)
            == PaymentDetails(store, prices, userId, crypto, total, w2)
  {
  }

  // ---------------------------------------------------------------------------------------------
  // checkPaymentOnBlockchain

  /** The outcome of one check: whether the target is met, and the USD value observed. */
  datatype Status = Status(isCompleted: bool, amountPaid: real)

  /** One reconciliation: load the row, look up the balance of its address, convert it to USD,
      overwrite `amountPaid` with it, and report completion against the stored target.
      The request's `amount` and the stored `completed` flag play no part. */
  function CheckPayment(store: Store, prices: PriceTable, crypto: string, amount: Option<real>,
                        userId: string, balance: BalanceReply): (r: Reply<Status>)
    ensures (userId, crypto) !in store ==> r.result == Err(NotFound)
    ensures (userId, crypto) in store && ChainOf(crypto).None? ==> r.result == Err(Unsupported)
    ensures (userId, crypto) in store && ChainOf(crypto).Some? ==>
              (r.result == Err(UpstreamFailure) <==> FetchBalance(ChainOf(crypto).value, balance).Err?)
    ensures r.result.Err? ==> r.store == store
    ensures r.result.Ok? <==>
              (userId, crypto) in store && ChainOf(crypto).Some? && FetchBalance(ChainOf(crypto).value, balance).Ok?
    ensures r.result.Ok? ==>
              (userId, crypto) in store
              && r.store == store[(userId, crypto) := store[(userId, crypto)].(amountPaid := r.result.value.amountPaid)]
    ensures r.result.Ok? ==>
              (r.result.value.isCompleted <==> r.result.value.amountPaid >= store[(userId, crypto)].totalAmount)
    ensures r.result.Ok? ==>
              r.result.value.amountPaid
              == ConvertToUsd(prices, FetchBalance(ChainOf(crypto).value, balance).value, crypto)
  {
    var key := (userId, crypto);
    if key !in store then Reply(Err(NotFound), store)
    else match ChainOf(crypto)
      case None => Reply(Err(Unsupported), store)
      case Some(c) =>
        match FetchBalance(c, balance)
        case Err(e) => Reply(Err(e), store)
        case Ok(native) =>
          var usd := ConvertToUsd(prices, native, crypto);
          Reply(Ok(Status(usd >= store[key].totalAmount, usd)), store[key := store[key].(amountPaid := usd)])
  }

  /** The request's amount has no influence on a check. */
  lemma CheckIgnoresAmount(store: Store, prices: PriceTable, crypto: string, a1: Option<real>, a2: Option<real>,
                           userId: string, balance: BalanceReply)
    ensures CheckPayment(store, prices, crypto, a1, userId, balance)
            == CheckPayment(store, prices, crypto, a2, userId, balance)
  {
  }

  /** The reported completion is recomputed from the balance alone: a row already marked completed
      is reported exactly as it would be if it were not. */
  lemma CheckIgnoresCompletedFlag(store: Store, prices: PriceTable, crypto: string, amount: Option<real>,
                                  userId: string, balance: BalanceReply, flag: bool)
    requires (userId, crypto) in store
    ensures CheckPayment(store[(userId, crypto) := store[(userId, crypto)].(completed := flag)],
                         prices, crypto, amount, userId, balance).result
            == CheckPayment(store, prices, crypto, amount, userId, balance).result
  {
  }

  /** Consequence of the above: a completed Bitcoin invoice whose balance lookup fails is reported
      not completed, and its recorded payment is overwritten with 0. */
  lemma CompletedInvoiceCanReportUnpaid(prices: PriceTable)
    ensures var store := map[("u", "Bitcoin") := Invoice(10.0, 10.0, true, "a", "s", Some("code"))];
            var r := CheckPayment(store, prices, "Bitcoin", Some(10.0), "u", Unavailable);
            r.result == Ok(Status(false, 0.0)) && r.store[("u", "Bitcoin")].amountPaid == 0.0
  {
    SupportedNamesDispatch();
  }

  /** A currency without a usable price never completes a positive target, whatever the balance. */
  lemma UnpricedNeverCompletes(store: Store, prices: PriceTable, crypto: string, amount: Option<real>,
                               userId: string, balance: BalanceReply)
    requires (userId, crypto) in store && store[(userId, crypto)].totalAmount > 0.0
    requires PriceOf(prices, SymbolOf(crypto)).None?
    ensures var r := CheckPayment(store, prices, crypto, amount, userId, balance);
            r.result.Ok? ==> !r.result.value.isCompleted && r.result.value.amountPaid == 0.0
  {
  }

  /** Checks read balances as absolute values: repeating a check with the same balance changes nothing more. */
  lemma CheckIdempotent(store: Store, prices: PriceTable, crypto: string, amount: Option<real>,
                        userId: string, balance: BalanceReply)
    ensures var r1 := CheckPayment(store, prices, crypto, amount, userId, balance);
            var r2 := CheckPayment(r1.store, prices, crypto, amount, userId, balance);
            r2 == r1
  {
  }

  // ---------------------------------------------------------------------------------------------
  // Completion with an assign-once code

  /** A code handed out, with the table after handing it out. */
  datatype Issued = Issued(code: string, store: Store)

  /** Completion: reuse the stored code if there is one; otherwise store the fresh `token` as the
      code and mark the row completed (an UPDATE that matches no row writes nothing). */
  function Complete(store: Store, userId: string, crypto: string, token: string): (r: Issued)
    ensures (userId, crypto) in store && HasCode(store[(userId, crypto)]) ==>
              Some(r.code) == store[(userId, crypto)].uniqueCode && r.store == store
    ensures !((userId, crypto) in store && HasCode(store[(userId, crypto)])) ==> r.code == token
    ensures (userId, crypto) in store ==>
              r.store.Keys == store.Keys && r.store[(userId, crypto)].uniqueCode == Some(r.code)
    ensures (userId, crypto) in store && !HasCode(store[(userId, crypto)]) ==>
              r.store[(userId, crypto)].completed
              && r.store[(userId, crypto)]
                 == store[(userId, crypto)].(completed := true, uniqueCode := r.store[(userId, crypto)].uniqueCode)
    ensures (userId, crypto) !in store ==> r.store == store
    ensures forall k :: k in store && k != (userId, crypto) ==> k in r.store && r.store[k] == store[k]
  {
    var key := (userId, crypto);
    if key in store && HasCode(store[key]) then Issued(store[key].uniqueCode.value, store)
    else if key in store then
      Issued(token, store[key := store[key].(completed := true, uniqueCode := Some(token))])
    else Issued(token, store)
  }

  /** Assign-once: after a completion has stored a non-empty code, every later completion returns that
      same code and writes nothing, whatever fresh token it was offered. */
  lemma CompleteAssignsOnce(store: Store, userId: string, crypto: string, t1: string, t2: string)
    requires (userId, crypto) in store
    requires t1 != "" || HasCode(store[(userId, crypto)])
    ensures var first := Complete(store, userId, crypto, t1);
            var second := Complete(first.store, userId, crypto, t2);
            second.code == first.code && second.store == first.store
  {
  }

  // ---------------------------------------------------------------------------------------------
  // The check followed by completion, shared by the HTTP endpoint and the socket handler

  /** What a settled check tells the caller: the code when the target is met, and the USD paid. */
  datatype Settled = Settled(code: Option<string>, amountPaid: real)

  /** Run a check and, when it reports completion, complete the row. */
  function Reconcile(store: Store, prices: PriceTable, crypto: string, amount: Option<real>,
                     userId: string, balance: BalanceReply, token: string): (r: Reply<Settled>)
    ensures r.result.Err? ==> r.store == store
    ensures r.result.Err? <==> CheckPayment(store, prices, crypto, amount, userId, balance).result.Err?
    ensures r.result.Ok? ==> (userId, crypto) in store && r.store.Keys == store.Keys
    // the amount reported and stored is the check's converted balance, and a code is issued exactly
    // when the check found the target met
    ensures r.result.Ok? ==>
              var checked := CheckPayment(store, prices, crypto, amount, userId, balance).result;
              checked.Ok?
              && r.result.value.amountPaid == checked.value.amountPaid
              && (r.result.value.code.Some? <==> checked.value.isCompleted)
    ensures r.result.Ok? ==>
              var key := (userId, crypto);
              var before := store[key];
              var after := r.store[key];
              after.amountPaid == r.result.value.amountPaid
              && after.totalAmount == before.totalAmount
              && after.address == before.address && after.seedPhrase == before.seedPhrase
              && (r.result.value.code.Some? <==> r.result.value.amountPaid >= before.totalAmount)
              && (r.result.value.code.Some? ==> after.uniqueCode == r.result.value.code)
              && (r.result.value.code.Some? && !HasCode(before) ==> after.completed)
              && (r.result.value.code.Some? && HasCode(before) ==>
                    r.result.value.code == before.uniqueCode && after.completed == before.completed)
              && (r.result.value.code.None? ==>
                    after.completed == before.completed && after.uniqueCode == before.uniqueCode)
    ensures forall k :: k in store && k != (userId, crypto) ==> k in r.store && r.store[k] == store[k]
  {
    var checked := CheckPayment(store, prices, crypto, amount, userId, balance);
    match checked.result
    case Err(e) => Reply(Err(e), store)
    case Ok(status) =>
      if status.isCompleted then
        var issued := Complete(checked.store, userId, crypto, token);
        Reply(Ok(Settled(Some(issued.code), status.amountPaid)), issued.store)
      else Reply(Ok(Settled(None, status.amountPaid)), checked.store)
  }

  /** A worked example: a 100 USD invoice in Bitcoin at 50 000 USD per coin is not paid by 0.0015 BTC
      (75 USD), and is paid by 0.002 BTC (100 USD), which issues the code. */
  lemma HundredDollarBitcoinExample(wallet: Wallet, token: string)
    ensures var prices := InitialTable()["BTC" := Quote(Some(50000.0), Some(0))];
            var key := ("u", "Bitcoin");
            var s0 := map[key := NewInvoice(100.0, wallet)];
            var r1 := Reconcile(s0, prices, "Bitcoin", Some(100.0), "u", Reported(150_000), token);
            var r2 := Reconcile(r1.store, prices, "Bitcoin", Some(100.0), "u", Reported(200_000), token);
            && r1.result == Ok(Settled(None, 75.0))
            && r2.result == Ok(Settled(Some(token), 100.0))
            && r2.store[key].completed
  {
    SupportedNamesDispatch();
    var prices := InitialTable()["BTC" := Quote(Some(50000.0), Some(0))];
    assert SymbolOf("Bitcoin") == "BTC";
    assert PriceOf(prices, "BTC") == Some(50000.0);
    assert FetchBalance(Bitcoin, Reported(150_000)) == Ok(0.0015);
    assert FetchBalance(Bitcoin, Reported(200_000)) == Ok(0.002);
    assert ConvertToUsd(prices, 0.0015, "Bitcoin") == 75.0;
    assert ConvertToUsd(prices, 0.002, "Bitcoin") == 100.0;
  }

  /** A payment-details request lets every existing row only evolve and keeps the invariant. */
  lemma DetailsEvolves(store: Store, prices: PriceTable, userId: string, crypto: string,
                       total: Option<real>, wallet: Wallet)
    requires CodeIffCompleted(store)
    ensures StoreEvolves(store, PaymentDetails(store, prices, userId, crypto, total, wallet).store)
    ensures CodeIffCompleted(PaymentDetails(store, prices, userId, crypto, total, wallet).store)
  {
  }

  /** A check, with the completion it may trigger, lets every existing row only evolve and keeps the invariant. */
  lemma ReconcileEvolves(store: Store, prices: PriceTable, crypto: string, amount: Option<real>,
                         userId: string, balance: BalanceReply, token: string)
    requires CodeIffCompleted(store)
    ensures StoreEvolves(store, Reconcile(store, prices, crypto, amount, userId, balance, token).store)
    ensures CodeIffCompleted(Reconcile(store, prices, crypto, amount, userId, balance, token).store)
  {
  }
}

=== FILE: prices.dfy ===
/** The in-memory USD quote table, its lookup, and its periodic refresh. */
module Prices {
  import opened Wrappers
  import opened Text
  import opened Units

  /** One quote: the last USD price and when it was observed; both start out `null`. */
  datatype Quote = Quote(value: Option<real>, timestamp: Option<int>)

  /** The quote table, keyed by ticker symbol. */
  type PriceTable = map<string, Quote>

  /** The symbols the refresh cycle visits, in order. */
  const Tracked: seq<string> := ["BTC", "ETH", "LTC", "BNB", "USDT"]

  /** The table at start-up: every tracked symbol present with no quote. */
  function InitialTable(): (t: PriceTable)
    ensures t.Keys == set s | s in Tracked
    ensures forall s :: s in t ==> t[s] == Quote(None, None)
  {
    map s | s in Tracked :: Quote(None, None)
  }

  /** The ticker each chain's quote is kept under. */
  function Ticker(c: Chain): string {
    match c
    case Bitcoin => "BTC"
    case Ethereum => "ETH"
    case Litecoin => "LTC"
    case Bnb => "BNB"
    case Usdt => "USDT"
  }

  /** The ticker a currency name is priced under. The match is exact: only the three coin names are
      renamed, to their chain's ticker, and every validated name lands on a tracked ticker. */
  function SymbolOf(crypto: string): (r: string)
    ensures r != crypto ==> crypto in ["Bitcoin", "Ethereum", "Litecoin"] && r == Ticker(ChainOf(crypto).value)
    ensures crypto in SupportedNames ==> ChainOf(crypto).Some? && r == Ticker(ChainOf(crypto).value) && r in Tracked
  {
    SupportedNamesDispatch();
    if crypto == "Ethereum" then "ETH"
    else if crypto == "Bitcoin" then "BTC"
    else if crypto == "Litecoin" then "LTC"
    else
      assert crypto in SupportedNames ==> crypto == "BNB" || crypto == "USDT";
      crypto
  }

  /** The usable price of a symbol: a quote that is present and not zero (a falsy price is unknown). */
  function PriceOf(t: PriceTable, symbol: string): (p: Option<real>)
    ensures p.Some? <==> symbol in t && t[symbol].value.Some? && t[symbol].value.value != 0.0
    ensures p.Some? ==> p.value == t[symbol].value.value
  {
    if symbol in t && t[symbol].value.Some? && t[symbol].value.value != 0.0
    then t[symbol].value else None
  }

  /** The USD value of a native-unit balance; 0 when the currency has no usable price. */
  function ConvertToUsd(t: PriceTable, balance: real, crypto: string): (r: real)
    ensures PriceOf(t, SymbolOf(crypto)).None? ==> r == 0.0
    ensures PriceOf(t, SymbolOf(crypto)).Some? ==> r == balance * PriceOf(t, SymbolOf(crypto)).value
  {
    match PriceOf(t, SymbolOf(crypto))
    case None => 0.0
    case Some(p) => balance * p
  }

  /** The unit price the payment-details reply reports scales every conversion. */
  lemma ConvertIsUnitPriceTimesBalance(t: PriceTable, balance: real, crypto: string)
    ensures ConvertToUsd(t, balance, crypto) == balance * ConvertToUsd(t, 1.0, crypto)
  {
  }

  /** Balance dispatch ignores case but pricing does not: a lower-case coin name reaches its chain,
      yet is looked up under a symbol that is never tracked, so it converts to 0 in every table built
      by the refresh cycle from the initial one. The HTTP validators, which accept only the five exact
      names, keep such a name away from the check, and on the socket path it matches no row, whose key
      comparison is exact; the validators are not part of this model, so this states what they guard. */
  lemma PricingIsCaseSensitive(feed: string -> PriceFeed, balance: real)
    ensures ChainOf("bitcoin") == Some(Bitcoin)
    ensures SymbolOf("bitcoin") !in Tracked
    ensures ConvertToUsd(Refresh(InitialTable(), Tracked, feed), balance, "bitcoin") == 0.0
  {
    assert Upper("bitcoin") == "BITCOIN";
    assert "bitcoin" !in Tracked;
    var t := Refresh(InitialTable(), Tracked, feed);
    assert "bitcoin" !in t;
  }

  /** The primary source's answer for one symbol: a numeric price, or a failure
      (network error, bad status, missing field, non-numeric field). */
  datatype PrimaryReply = Quoted(price: real) | Failed

  /** Everything one refresh learns about a symbol: the primary answer, the secondary rate table's
      entry for it (absent when missing, empty or on error), and the clock at that moment. */
  datatype PriceFeed = PriceFeed(primary: PrimaryReply, fallback: Option<real>, at: int)

  /** The primary source's id for a ticker, if the ticker is mapped at all: exactly the tracked
      tickers are mapped. */
  function PrimaryId(symbol: string): (r: Option<string>)
    ensures r.Some? <==> symbol in Tracked
  {
    if symbol == "BTC" then Some("bitcoin")
    else if symbol == "ETH" then Some("ethereum")
    else if symbol == "LTC" then Some("litecoin")
    else if symbol == "BNB" then Some("binancecoin")
    else if symbol == "USDT" then Some("tether")
    else None
  }

  /** Distinct tickers ask the primary source for distinct ids. */
  lemma PrimaryIdInjective(a: string, b: string)
    requires PrimaryId(a).Some? && PrimaryId(a) == PrimaryId(b)
    ensures a == b
  {
  }

  /** One price fetch: an unmapped id gives null without any request; a primary answer is taken as is;
      after a primary failure, BTC, ETH and LTC give null while every other mapped id (BNB, USDT)
      asks the secondary source. */
  function FetchPrice(id: string, feed: PriceFeed): (r: Option<real>)
    ensures PrimaryId(Upper(id)).None? ==> r.None?
    ensures PrimaryId(Upper(id)).Some? && feed.primary.Quoted? ==> r == Some(feed.primary.price)
    ensures PrimaryId(Upper(id)).Some? && feed.primary.Failed? ==>
              r == (if Upper(id) in ["BTC", "ETH", "LTC"] then None else feed.fallback)
  {
    var u := Upper(id);
    if PrimaryId(u).None? then None
    else match feed.primary
      case Quoted(p) => Some(p)
      case Failed =>
        if u == "USDT" || u !in ["BTC", "ETH", "LTC"] then feed.fallback else None
  }

  /** Only BNB and USDT ever reach the secondary source. */
  lemma SecondaryOnlyForBnbAndUsdt(id: string, feed: PriceFeed)
    requires FetchPrice(id, feed).Some? && feed.primary.Failed?
    ensures Upper(id) == "BNB" || Upper(id) == "USDT"
  {
  }

  /** One symbol's turn in the refresh loop: a non-null price overwrites that symbol's quote,
      a null price leaves the table as it was. */
  function RefreshSymbol(t: PriceTable, symbol: string, feed: string -> PriceFeed): (r: PriceTable)
    ensures FetchPrice(symbol, feed(symbol)).None? ==> r == t
    ensures FetchPrice(symbol, feed(symbol)).Some? ==>
              r.Keys == t.Keys + {symbol}
              && r[symbol].value == FetchPrice(symbol, feed(symbol))
              && r[symbol].timestamp == Some(feed(symbol).at)
    ensures forall s :: s in t && s != symbol ==> s in r && r[s] == t[s]
  {
    match FetchPrice(symbol, feed(symbol))
    case None => t
    case Some(p) => t[symbol := Quote(Some(p), Some(feed(symbol).at))]
  }

  /** The table after visiting `symbols` in order. */
  function Refresh(t: PriceTable, symbols: seq<string>, feed: string -> PriceFeed): (r: PriceTable)
    ensures r.Keys == t.Keys + (set s | s in symbols && FetchPrice(s, feed(s)).Some?)
    ensures forall s :: s in symbols && FetchPrice(s, feed(s)).Some? ==>
              r[s] == Quote(FetchPrice(s, feed(s)), Some(feed(s).at))
    ensures forall s :: s in t && (s !in symbols || FetchPrice(s, feed(s)).None?) ==> r[s] == t[s]
  {
    if symbols == [] then t
    else
      var init, last := symbols[..|symbols| - 1], symbols[|symbols| - 1];
      assert forall s :: s in symbols <==> s in init || s == last;
      RefreshSymbol(Refresh(t, init, feed), last, feed)
  }

  /** Visit `symbols` one at a time, refreshing each symbol's quote in turn. */
  method RefreshEach(t: PriceTable, symbols: seq<string>, feed: string -> PriceFeed) returns (r: PriceTable)
    ensures r == Refresh(t, symbols, feed)
  {
    r := t;
    var i := 0;
    while i < |symbols|
      invariant 0 <= i <= |symbols|
      invariant r == Refresh(t, symbols[..i], feed)
    {
      assert symbols[..i + 1][..i] == symbols[..i];
      r := RefreshSymbol(r, symbols[i], feed);
      i := i + 1;
    }
    assert symbols[..i] == symbols;
  }

  /** The refresh cycle: visit the tracked symbols one at a time. */
  method UpdateCryptoPrices(t: PriceTable, feed: string -> PriceFeed) returns (r: PriceTable)
    ensures r == Refresh(t, Tracked, feed)
    ensures forall s :: s in Tracked && FetchPrice(s, feed(s)).Some? ==> r[s].value == FetchPrice(s, feed(s))
    ensures forall s :: s in t && FetchPrice(s, feed(s)).None? ==> r[s] == t[s]
  {
    r := RefreshEach(t, Tracked, feed);
  }
}

=== FILE: seqs.dfy ===
/** Linear search, the `Array.prototype.find` / `indexOf` idiom the system uses. */
module Seqs {
  import opened Wrappers

  /** The index of the first element of `s` that satisfies `p`, if any. */
  function FindFirst<T>(s: seq<T>, p: T -> bool): (r: Option<nat>)
    ensures r.Some? ==> r.value < |s| && p(s[r.value])
    ensures r.Some? ==> forall j :: 0 <= j < r.value ==> !p(s[j])
    ensures r.None? ==> forall j :: 0 <= j < |s| ==> !p(s[j])
  {
    if s == [] then None
    else if p(s[0]) then Some(0)
    else match FindFirst(s[1..], p)
      case None => None
      case Some(i) => Some(i + 1)
  }
}

=== FILE: server.dfy ===
/** The server's request handlers over the payments table and the quote table, and what any
    sequential history of requests preserves. */
module Server {
  import opened Wrappers
  import opened Text
  import opened Units
  import opened Prices
  import opened Payments
  import opened Frames

  /** The server's state: the persistent table and the in-memory quotes. */
  datatype ServerState = ServerState(store: Store, prices: PriceTable)

  /** A fresh server: an empty table and no quotes yet. */
  function InitialServer(): ServerState {
    ServerState(map[], InitialTable())
  }

  /** POST /api/check-payment: the three fields must be truthy, then the check runs and a completed
      check completes the row; the JSON body carries the code and the USD paid. */
  function PostCheckPayment(store: Store, prices: PriceTable, crypto: string, amount: Option<real>,
                            userId: string, balance: BalanceReply, token: string): (r: Reply<ServerFrame>)
    ensures crypto == "" || !TruthyNumber(amount) || userId == "" ==> r.result == Err(MissingParameter)
    ensures r.result.Err? ==> r.store == store
    ensures r.result.Ok? ==> (userId, crypto) in store
    ensures r.store == store || r.store == Reconcile(store, prices, crypto, amount, userId, balance, token).store
    // with all three fields present, the reply is exactly the reconciliation's outcome
    ensures crypto != "" && TruthyNumber(amount) && userId != "" ==>
              var settled := Reconcile(store, prices, crypto, amount, userId, balance, token);
              r.store == settled.store
              && (r.result.Err? <==> settled.result.Err?)
              && (r.result.Err? ==> r.result.error == settled.result.error)
    ensures r.result.Ok? ==>
              (userId, crypto) in r.store
              && (r.result.value.CompletedFrame? <==>
                    r.store[(userId, crypto)].amountPaid >= store[(userId, crypto)].totalAmount)
    ensures r.result.Ok? ==> r.result.value.PendingFrame? || r.result.value.CompletedFrame?
    ensures r.result.Ok? && r.result.value.CompletedFrame? ==>
              (userId, crypto) in r.store
              && r.store[(userId, crypto)].uniqueCode == Some(r.result.value.uniqueCode)
              && r.result.value.paidIfSent == Some(r.store[(userId, crypto)].amountPaid)
    ensures r.result.Ok? && r.result.value.CompletedFrame? && HasCode(store[(userId, crypto)]) ==>
              Some(r.result.value.uniqueCode) == store[(userId, crypto)].uniqueCode
    ensures r.result.Ok? && r.result.value.PendingFrame? ==>
              (userId, crypto) in r.store
              && r.result.value.amountPaid == r.store[(userId, crypto)].amountPaid
              && r.store[(userId, crypto)].uniqueCode == store[(userId, crypto)].uniqueCode
  {
    if crypto == "" || !TruthyNumber(amount) || userId == "" then Reply(Err(MissingParameter), store)
    else
      var settled := Reconcile(store, prices, crypto, amount, userId, balance, token);
      match settled.result
      case Err(e) => Reply(Err(e), store)
      case Ok(Settled(code, paid)) =>
        match code
        case Some(c) => Reply(Ok(CompletedFrame(c, Some(paid))), settled.store)
        case None => Reply(Ok(PendingFrame(paid)), settled.store)
  }

  /** The socket's reply text for a frame without the three fields. */
  const InvalidFormat := "Invalid message format"

  /** The socket's reply text when the check throws. */
  const ProcessingError := "Error processing message"

  /** One inbound socket frame `{crypto, amount, userId}`: an error frame without invoking the check
      when a field is falsy, a generic error frame when the check fails, otherwise the check's
      result; a completed frame carries the code but no amount. */
  function OnSocketMessage(store: Store, prices: PriceTable, crypto: Option<string>, amount: Option<real>,
                           userId: Option<string>, balance: BalanceReply, token: string): (r: (ServerFrame, Store))
    ensures !Truthy(crypto) || !TruthyNumber(amount) || !Truthy(userId) ==> r == (ErrorFrame(InvalidFormat), store)
    ensures r.0.ErrorFrame? ==> r.1 == store
    ensures !r.0.ErrorFrame? ==> Truthy(crypto) && Truthy(userId) && (userId.value, crypto.value) in store
    ensures r.1 == store
            || (Truthy(crypto) && Truthy(userId)
                && r.1 == Reconcile(store, prices, crypto.value, amount, userId.value, balance, token).store)
    // with all three fields present, the frame is exactly the reconciliation's outcome
    ensures Truthy(crypto) && TruthyNumber(amount) && Truthy(userId) ==>
              var settled := Reconcile(store, prices, crypto.value, amount, userId.value, balance, token);
              r.1 == settled.store
              && (r.0.ErrorFrame? <==> settled.result.Err?)
              && (settled.result.Err? ==> r.0 == ErrorFrame(ProcessingError))
    ensures !r.0.ErrorFrame? ==>
              (userId.value, crypto.value) in r.1
              && (r.0.CompletedFrame? <==>
                    r.1[(userId.value, crypto.value)].amountPaid >= store[(userId.value, crypto.value)].totalAmount)
    ensures r.0.CompletedFrame? ==>
              r.0.paidIfSent.None?
              && (userId.value, crypto.value) in r.1
              && r.1[(userId.value, crypto.value)].uniqueCode == Some(r.0.uniqueCode)
    ensures r.0.CompletedFrame? && HasCode(store[(userId.value, crypto.value)]) ==>
              Some(r.0.uniqueCode) == store[(userId.value, crypto.value)].uniqueCode
    ensures r.0.PendingFrame? ==>
              (userId.value, crypto.value) in r.1
              && r.0.amountPaid == r.1[(userId.value, crypto.value)].amountPaid
  {
    if !Truthy(crypto) || !TruthyNumber(amount) || !Truthy(userId) then (ErrorFrame(InvalidFormat), store)
    else
      var settled := Reconcile(store, prices, crypto.value, amount, userId.value, balance, token);
      match settled.result
      case Err(_) => (ErrorFrame(ProcessingError), store)
      case Ok(Settled(code, paid)) =>
        match code
        case Some(c) => (CompletedFrame(c, None), settled.store)
        case None => (PendingFrame(paid), settled.store)
  }

  /** The requests and timer ticks that change server state, each with the inputs its external calls produce. */
  datatype Request =
    | GetPaymentDetails(userId: string, crypto: string, total: Option<real>, wallet: Wallet)
    | PostCheck(crypto: string, amount: Option<real>, userId: string, balance: BalanceReply, token: string)
    | SocketFrame(socketCrypto: Option<string>, socketAmount: Option<real>, socketUser: Option<string>,
                  balance: BalanceReply, token: string)
    | PriceTick(feed: string -> PriceFeed)

  /** A request that creates a row: a details request, which may create the row under its own key. */
  predicate Creates(q: Request, k: Key) {
    q.GetPaymentDetails? && k == (q.userId, q.crypto)
  }

  /** The state after handling one request. Only a price tick touches the quotes and it leaves the
      table alone; no request removes a row, and only a details request adds one, under its own key. */
  function Step(s: ServerState, q: Request): (r: ServerState)
    ensures !q.PriceTick? ==> r.prices == s.prices
    ensures q.PriceTick? ==> r.store == s.store
    ensures s.store.Keys <= r.store.Keys
    ensures forall k :: k in r.store && k !in s.store ==> Creates(q, k)
  {
    match q
    case GetPaymentDetails(userId, crypto, total, wallet) =>
      s.(store := PaymentDetails(s.store, s.prices, userId, crypto, total, wallet).store)
    case PostCheck(crypto, amount, userId, balance, token) =>
      s.(store := PostCheckPayment(s.store, s.prices, crypto, amount, userId, balance, token).store)
    case SocketFrame(crypto, amount, userId, balance, token) =>
      s.(store := OnSocketMessage(s.store, s.prices, crypto, amount, userId, balance, token).1)
    case PriceTick(feed) =>
      s.(prices := Refresh(s.prices, Tracked, feed))
  }

  /** The state after handling a sequence of requests one after another. Rows are never removed, and
      every row present at the end was there at the start or was created by one of the details requests. */
  function Run(s: ServerState, qs: seq<Request>): (r: ServerState)
    ensures s.store.Keys <= r.store.Keys
    ensures forall k :: k in r.store && k !in s.store ==> exists i :: 0 <= i < |qs| && Creates(qs[i], k)
    ensures (forall i :: 0 <= i < |qs| ==> !qs[i].PriceTick?) ==> r.prices == s.prices
    decreases |qs|
  {
    if qs == [] then s
    else
      var r := Run(Step(s, qs[0]), qs[1..]);
      assert forall i :: 0 <= i < |qs[1..]| ==> qs[1..][i] == qs[i + 1];
      r
  }

  /** One request lets every existing row only evolve, and keeps the completed/code invariant. */
  lemma StepEvolves(s: ServerState, q: Request)
    requires CodeIffCompleted(s.store)
    ensures StoreEvolves(s.store, Step(s, q).store)
    ensures CodeIffCompleted(Step(s, q).store)
  {
    match q
    case GetPaymentDetails(userId, crypto, total, wallet) =>
      DetailsEvolves(s.store, s.prices, userId, crypto, total, wallet);
    case PostCheck(crypto, amount, userId, balance, token) =>
      ReconcileEvolves(s.store, s.prices, crypto, amount, userId, balance, token);
    case SocketFrame(crypto, amount, userId, balance, token) =>
      if Truthy(crypto) && Truthy(userId) {
        ReconcileEvolves(s.store, s.prices, crypto.value, amount, userId.value, balance, token);
      }
    case PriceTick(feed) =>
  }

  /** Any sequential history lets every existing row only evolve, and keeps the invariant. */
  lemma {:induction false} RunEvolves(s: ServerState, qs: seq<Request>)
    requires CodeIffCompleted(s.store)
    ensures StoreEvolves(s.store, Run(s, qs).store)
    ensures CodeIffCompleted(Run(s, qs).store)
    decreases |qs|
  {
    if qs != [] {
      var next := Step(s, qs[0]);
      StepEvolves(s, qs[0]);
      RunEvolves(next, qs[1..]);
    }
  }

  /** Assign-once over histories: a stored confirmation code is returned and kept by every later
      request, and the row keeps its deposit wallet and stays completed. */
  lemma CodeNeverChanges(s: ServerState, qs: seq<Request>, k: Key)
    requires CodeIffCompleted(s.store)
    requires k in s.store && HasCode(s.store[k])
    ensures k in Run(s, qs).store
    ensures Run(s, qs).store[k].uniqueCode == s.store[k].uniqueCode
    ensures Run(s, qs).store[k].completed
    ensures Run(s, qs).store[k].address == s.store[k].address
  {
    RunEvolves(s, qs);
  }

  /** Every history from a fresh server keeps the completed/code invariant. */
  lemma ReachableStoresAreWellFormed(qs: seq<Request>)
    ensures CodeIffCompleted(Run(InitialServer(), qs).store)
  {
    RunEvolves(InitialServer(), qs);
  }
}

=== FILE: text.dfy ===
/** The string and truthiness conventions of the JavaScript sources. */
module Text {
  import opened Wrappers
  import opened Seqs

  /** JavaScript truthiness of an optional string: present and not empty. */
  predicate Truthy(s: Option<string>) {
    s.Some? && s.value != ""
  }

  /** JavaScript truthiness of an optional number: present and not zero. */
  predicate TruthyNumber(x: Option<real>) {
    x.Some? && x.value != 0.0
  }

  /** `toUpperCase` on one character, restricted to ASCII letters. */
  function UpperChar(c: char): char {
    if 'a' <= c <= 'z' then (c as int - 32) as char else c
  }

  /** `toUpperCase` on a string, restricted to ASCII letters. */
  function Upper(s: string): (r: string)
    ensures |r| == |s|
    ensures forall i :: 0 <= i < |s| ==> r[i] == UpperChar(s[i])
  {
    seq(|s|, i requires 0 <= i < |s| => UpperChar(s[i]))
  }

  /** Upper-casing twice changes nothing more: case-insensitive dispatch is stable. */
  lemma UpperIdempotent(s: string)
    ensures Upper(Upper(s)) == Upper(s)
  {
  }

  /** The position of the first `c` in `s`, as `indexOf` finds it. */
  function IndexOf(s: string, c: char): (r: Option<nat>)
    ensures r.Some? ==> r.value < |s| && s[r.value] == c && c !in s[..r.value]
    ensures r.None? ==> c !in s
  {
    FindFirst(s, x => x == c)
  }

  /** A separator that does not occur before its first occurrence is found there. */
  lemma IndexOfSplit(x: string, c: char, y: string)
    requires c !in x
    ensures IndexOf(x + [c] + y, c) == Some(|x|)
  {
    var s := x + [c] + y;
    assert s[|x|] == c;
    assert s[..|x|] == x;
    assert forall n :: |x| < n <= |s| ==> s[..n][|x|] == c;
  }
}

=== FILE: units.dfy ===
/** The supported chains, their smallest units and the balance-lookup failure policy. */
module Units {
  import opened Wrappers
  import opened Text

  /** The five currencies the server dispatches on. */
  datatype Chain = Bitcoin | Ethereum | Litecoin | Bnb | Usdt

  /** The currency names the request validators accept. */
  const SupportedNames: seq<string> := ["Bitcoin", "Ethereum", "Litecoin", "BNB", "USDT"]

  /** The upper-case name each chain's branch compares against. */
  function DispatchName(c: Chain): string {
    match c
    case Bitcoin => "BITCOIN"
    case Ethereum => "ETHEREUM"
    case Litecoin => "LITECOIN"
    case Bnb => "BNB"
    case Usdt => "USDT"
  }

  /** Case-insensitive dispatch on a currency name, as the `toUpperCase()` chains do: a name reaches
      the chain whose name it upper-cases to, and no chain when it upper-cases to none of them. */
  function ChainOf(crypto: string): (r: Option<Chain>)
    ensures r.Some? ==> Upper(crypto) == DispatchName(r.value)
    ensures r.None? <==> forall c: Chain :: Upper(crypto) != DispatchName(c)
  {
    var u := Upper(crypto);
    assert forall c: Chain :: DispatchName(c) in ["BITCOIN", "ETHEREUM", "LITECOIN", "BNB", "USDT"];
    if u == "BITCOIN" then Some(Bitcoin)
    else if u == "ETHEREUM" then Some(Ethereum)
    else if u == "LITECOIN" then Some(Litecoin)
    else if u == "BNB" then Some(Bnb)
    else if u == "USDT" then Some(Usdt)
    else None
  }

  /** Dispatch depends only on the upper-cased name. */
  lemma ChainOfIgnoresCase(crypto: string)
    ensures ChainOf(Upper(crypto)) == ChainOf(crypto)
  {
    UpperIdempotent(crypto);
  }

  /** Each chain's own upper-case name dispatches back to it. */
  lemma DispatchNameRoundTrip(c: Chain)
    ensures ChainOf(DispatchName(c)) == Some(c)
  {
    match c
    case Bitcoin => assert Upper("BITCOIN") == "BITCOIN";
    case Ethereum => assert Upper("ETHEREUM") == "ETHEREUM";
    case Litecoin => assert Upper("LITECOIN") == "LITECOIN";
    case Bnb => assert Upper("BNB") == "BNB";
    case Usdt => assert Upper("USDT") == "USDT";
  }

  /** Every validated name reaches a chain, and distinct names reach distinct chains. */
  lemma SupportedNamesDispatch()
    ensures ChainOf("Bitcoin") == Some(Bitcoin)
    ensures ChainOf("Ethereum") == Some(Ethereum)
    ensures ChainOf("Litecoin") == Some(Litecoin)
    ensures ChainOf("BNB") == Some(Bnb)
    ensures ChainOf("USDT") == Some(Usdt)
  {
    assert Upper("Bitcoin") == "BITCOIN";
    assert Upper("Ethereum") == "ETHEREUM";
    assert Upper("Litecoin") == "LITECOIN";
    assert Upper("BNB") == "BNB";
    assert Upper("USDT") == "USDT";
  }

  /** Smallest units per whole coin: satoshi, wei, and the six-decimal USDT unit. */
  function Divisor(c: Chain): (d: nat)
    ensures d > 0
  {
    match c
    case Bitcoin | Litecoin => 100_000_000
    case Ethereum | Bnb => 1_000_000_000_000_000_000
    case Usdt => 1_000_000
  }

  /** A smallest-unit balance in the chain's human-readable unit. */
  function Normalize(c: Chain, units: nat): (r: real)
    ensures r >= 0.0
    ensures r * Divisor(c) as real == units as real
  {
    units as real / Divisor(c) as real
  }

  /** What a balance endpoint answered: a smallest-unit balance, or a failure (network, bad status). */
  datatype BalanceReply = Reported(units: nat) | Unavailable

  /** Why a request failed. */
  datatype Failure = MissingParameter | NotFound | Unsupported | UpstreamFailure | NotNullViolation

  /** The per-chain balance lookup: normalise a reported balance; on failure, the Bitcoin, Ethereum
      and Litecoin lookups answer 0 while the BNB and USDT lookups rethrow. */
  function FetchBalance(c: Chain, reply: BalanceReply): (r: Result<real, Failure>)
    ensures r.Err? <==> reply.Unavailable? && (c == Bnb || c == Usdt)
    ensures r.Err? ==> r.error == UpstreamFailure
    ensures r.Ok? && reply.Reported? ==> r.value * Divisor(c) as real == reply.units as real
    ensures r.Ok? && reply.Unavailable? ==> r.value == 0.0
  {
    match reply
    case Reported(units) => Ok(Normalize(c, units))
    case Unavailable =>
      if c == Bnb || c == Usdt then Err(UpstreamFailure) else Ok(0.0)
  }

  /** For the chains that swallow failures, a failed lookup is indistinguishable from an empty address. */
  lemma FailureLooksLikeEmpty(c: Chain)
    requires c != Bnb && c != Usdt
    ensures FetchBalance(c, Unavailable) == FetchBalance(c, Reported(0))
  {
  }

  /** The USDT lookup: a balance in six-decimal units, and a failure that propagates. */
  lemma UsdtLookup(units: nat)
    ensures FetchBalance(Usdt, Reported(units)) == Ok(units as real / 1_000_000.0)
    ensures FetchBalance(Usdt, Unavailable) == Err(UpstreamFailure)
  {
  }

  /** The BNB lookup: a balance in wei, and a failure that propagates. */
  lemma BnbLookup(units: nat)
    ensures FetchBalance(Bnb, Reported(units)) == Ok(units as real / 1_000_000_000_000_000_000.0)
    ensures FetchBalance(Bnb, Unavailable) == Err(UpstreamFailure)
  {
  }
}

=== FILE: wrappers.dfy ===
/** Optional values and results with an error, used for JavaScript's null/undefined and thrown errors. */
module Wrappers {

  /** A value that may be absent: JavaScript's `null`/`undefined` (and numbers JSON renders as null). */
  datatype Option<+T> = None | Some(value: T) {

    /** The value when present, otherwise `default`. */
    function GetOr(default: T): T {
      match this
      case Some(v) => v
      case None => default
    }
  }

  /** The outcome of an operation that may throw or reply with an error status. */
  datatype Result<+R, +E> = Ok(value: R) | Err(error: E)
}
